=== FILE: README.md ===
# Itinerary data access, modelled in Dafny

This project models the itinerary data-access layer of a transit-information
backend. Given a transit line, `getItinerary` returns the line's stops in route
order. It looks the line up in a local store. On a miss it fetches a CSV-like
feed over HTTP, decodes it and saves the rows. It then infers each stop's
direction from the feed's terminus markers and cleans up each stop's name.

Modules, one per component of `src/dataaccess/itinerary.js`:

- `Strings`: the JavaScript `split`/`join` on one character and the global
  character deletion `replace(/c/g, "")`, with their round-trip lemmas.
- `Feed`: `respondRequest`. It classifies the HTTP status and decodes a 200 body
  into rows of string fields. It also defines the body a provider would send for
  given rows, and proves the decode round trip.
- `Itinerary`: the assembly loop of `getItinerary`. It is written as a recursive
  fold that threads the `returning` variable as an explicit `Leg` state
  (0 / 1 / -1). It also holds the name cleanup and the positional reading of a
  decoded row.
- `Url`: the request URL of `requestFromServer`. This includes the JavaScript
  meaning of `$` patterns in the replacement string of `String.prototype.replace`.
- `DataAccess`: `retrieveData` and `getItinerary` over a store modelled as a map
  from line to rows. The HTTP GET is a function parameter from URL to response.

Assumptions:

- The marker field `f3` is compared with `==0` and multiplied by `returning`.
  JavaScript applies the same numeric conversion in both places. The model takes
  that conversion as a parameter `toNumber: string -> int`, and a `RawRow`
  carries the converted integer.
- Rows before the first terminus: the code starts `returning` at 0, so such a
  row gets direction `f3 * 0 = 0`, not its own marker. The model follows the
  code: a three-row sample with markers 1, 0, 1 assembles to directions 0, 0, 1
  (`DataAccess.SampleLookup`).

## Model

| member | source | states |
|---|---|---|
| Feed.Classify | src/dataaccess/itinerary.js:111-132 | Status 200 is the decoding branch, and only 200. 302, 404 and 503 each have their own branch. Every other code reaches the generic error branch carrying that code. |
| Feed.RespondRequest | src/dataaccess/itinerary.js:109-134 | Any status other than 200 yields no rows. On 200 there is one row per non-empty line after the header, in body order, and row j joined with commas is the j-th such line. No field contains a comma, a quote, `\r` or `\n`. An empty body yields no rows. |
| Feed.Lines | src/dataaccess/itinerary.js:113 | Removing noise and splitting the body on `\n` gives at least one line, so the header shift always has a line to drop. `Strings.RemoveCounts` and `Strings.JoinSplit` state what the lines hold. |
| Feed.NonEmptyMembers | src/dataaccess/itinerary.js:116-117 | A line is kept exactly when it is one of the lines and is not empty. |
| Feed.NonEmptyAppend | src/dataaccess/itinerary.js:116-117 | Filtering `a + b` gives the kept lines of `a` followed by those of `b`, so kept lines stay in their original order. |
| Feed.RowsOf | src/dataaccess/itinerary.js:115-119 | Empty lines are skipped. Each kept line gives one row, and the rows keep line order. Each row joins back with commas to its line, has at least one field, and has no comma inside a field. |
| Feed.RoundTrip | src/dataaccess/itinerary.js:113-119 | Take a header line without `\n` and rows that are non-empty lines of clean fields. Join each row with commas, put the header line first and join the lines with `\n`. Decoding that body with status 200 gives back exactly the rows. |
| Strings.Remove | src/dataaccess/itinerary.js:113 | Global deletion leaves none of the deleted characters and never lengthens the string. |
| Strings.RemoveCounts | src/dataaccess/itinerary.js:113 | Every occurrence of a deleted character is gone, and every other character occurs exactly as often as in the input. |
| Strings.RemoveNothing | src/dataaccess/itinerary.js:113 | A string with none of the deleted characters is returned unchanged. |
| Strings.RemoveAppend | src/dataaccess/itinerary.js:113 | Deletion works piece by piece: deleting from `s + t` gives the deletion from `s` followed by the deletion from `t`. With `Strings.RemoveCounts` and `Strings.RemoveNothing` this fixes the result: a deleted character vanishes, and every other character is kept, in order. |
| Strings.Split | src/dataaccess/itinerary.js:118 | `s.split(c)`: there is always at least one piece, and no piece contains the separator. `Strings.JoinSplit` shows the pieces rebuild `s`. |
| Strings.JoinSplit | src/dataaccess/itinerary.js:32-33 | Joining the pieces of `s.split(c)` with `c` gives back `s`. |
| Strings.SplitJoin | src/dataaccess/itinerary.js:118 | Splitting the join of one or more separator-free pieces gives back exactly those pieces. |
| Itinerary.Step | src/dataaccess/itinerary.js:29-30 | The `returning` state only moves forward (0, then 1, then -1), at most one step per row and only on a terminus row. Every terminus moves it until the return leg is reached, and after that it never changes. |
| Itinerary.CleanNameWithoutDash | src/dataaccess/itinerary.js:32-33 | `Itinerary.CleanName` (split on `-`, drop the first piece, join with `-`): when `f1` has no `-`, the name is the empty string. |
| Itinerary.CleanNameAfterFirstDash | src/dataaccess/itinerary.js:32-33 | When `f1` has a `-`, the name is exactly the text after its first `-`. Later dashes are kept. |
| Itinerary.AssembleFrom | src/dataaccess/itinerary.js:28-35 | The loop body run from a given `returning` state yields one stop per row. `Itinerary.AssemblePassThrough` states each stop's fields. |
| Itinerary.Assemble | src/dataaccess/itinerary.js:26-37 | The pass yields exactly one stop per row. |
| Itinerary.AssemblePassThrough | src/dataaccess/itinerary.js:28-35 | Stop i is built from row i. Its order, lat, lon and extra fields are row i's `f0`, `f2`, `f4`, `f5`, `f6` unchanged, and its name is the cleaned `f1`. |
| Itinerary.AssembleByTermini | src/dataaccess/itinerary.js:27-34 | Stop i's direction is row i's marker times 0, 1 or -1. The factor is 0 when rows 0..i hold no terminus, 1 when they hold one, and -1 when they hold two or more. This is the direction rule stated without the loop state. It holds because the state is updated before the row's direction is computed. |
| Itinerary.Directions | src/dataaccess/itinerary.js:27-34 | A terminus row gets direction 0. A row with no terminus at or before it gets 0, a row with one gets its marker, and a row with two or more gets its negated marker. |
| Itinerary.BeforeFirstTerminus | src/dataaccess/itinerary.js:27-29 | Every row before the first terminus gets direction 0, whatever its marker. |
| Itinerary.TwoLegsExample | src/dataaccess/itinerary.js:27-34 | Markers 0,5,6,0,5,6 give directions 0,5,6,0,-5,-6. |
| Itinerary.LeadingRowExample | src/dataaccess/itinerary.js:27-34 | Markers 1,0,1 give directions 0,0,1: the leading row has no leg yet. |
| Itinerary.CleanNameExamples | src/dataaccess/itinerary.js:32-33 | "12-Downtown-Main St" becomes "Downtown-Main St", and "Downtown" becomes the empty name. |
| Itinerary.FromFields | src/dataaccess/itinerary.js:34 | A row of seven or more fields is read by position into `f0`..`f6`, with `f3` converted to a number. A shorter row is refused. |
| Itinerary.FromFieldRows | src/dataaccess/itinerary.js:28-34 | All rows are read positionally, in order, unless at least one is short. |
| Url.IndexOfFrom | src/dataaccess/itinerary.js:77 | The result is the first occurrence of the pattern at or after the start index, or none when there is no occurrence from there on. |
| Url.ExpandWithoutDollar | src/dataaccess/itinerary.js:77 | A replacement string without `$` is inserted as it is. |
| Url.ExpandLiteralPrefix | src/dataaccess/itinerary.js:77 | Text without `$` at the front of a replacement string is copied unchanged, ahead of the expansion of the rest. |
| Url.ExpandDollarDollar | src/dataaccess/itinerary.js:77 | In a replacement string, a `$$` after a `$`-free prefix stands for a single `$`, and the text after it is expanded on its own. Applied at each `$$` in turn, this covers any run of dollar signs. |
| Url.ReplaceFirst | src/dataaccess/itinerary.js:77 | A string without the pattern is unchanged. Otherwise only the first occurrence is replaced by the expanded replacement, and the text before and after it is kept. |
| Url.WithoutPlaceholder | src/dataaccess/itinerary.js:77 | A template without `$$` gives `http://` + host + the template unchanged. |
| Url.PlaceholderReplaced | src/dataaccess/itinerary.js:77 | `Url.RequestUrl`, with `Url.Expand` as JavaScript's replacement expansion: with the first `$$` at k, the URL is `http://` + host + the template before k + the expanded line + the template after the `$$`. |
| Url.FirstPlaceholderOnly | src/dataaccess/itinerary.js:77 | For a template `a + "$$" + b` with no `$` in `a`, and a line without `$`, the URL is `http://` + host + `a` + line + `b`. Everything after the first placeholder is kept as it is, later placeholders included. |
| Url.DollarInLine | src/dataaccess/itinerary.js:77 | A line `x + "$$" + y` (no other `$`) lands in the URL as `x + "$" + y`, as JavaScript's replacement patterns dictate. |
| DataAccess.RetrieveData | src/dataaccess/itinerary.js:46-59 | A stored line yields its saved rows and leaves the store alone. A missing line yields the decoded answer from its request URL. Either way the line is stored with the returned rows afterwards, and every other line keeps its rows. |
| DataAccess.GetItinerary | src/dataaccess/itinerary.js:24-38 | The store is updated as `retrieveData` does. The stops are refused exactly when some retrieved row is too short to read; otherwise there is one stop per retrieved row. `DataAccess.ItineraryStops` states what each stop holds. |
| DataAccess.ItineraryStops | src/dataaccess/itinerary.js:25-37 | When the stops are built, stop i comes from retrieved row i. Its order, lat, lon and extra fields are fields 0, 2, 4, 5 and 6 of that row, and its name is field 1 cleaned. Its direction is field 3 as a number times 0, 1 or -1, depending on how many termini rows 0..i hold. |
| DataAccess.SecondLookupHits | src/dataaccess/itinerary.js:46-59 | A second lookup of the same line hits the store and returns the rows of the first, whatever the provider would answer now. |
| DataAccess.RepeatedItinerary | src/dataaccess/itinerary.js:24-59 | Consecutive `getItinerary` calls for one line give identical stops and leave the store unchanged, once the first call's write has completed. |
| DataAccess.FailedFetchIsSaved | src/dataaccess/itinerary.js:54-57 | On a miss answered with a non-200 status, the line is stored with no rows and yields no stops. Later lookups keep yielding no stops. |
| DataAccess.SampleLookup | src/dataaccess/itinerary.js:24-38 | Line "100" is looked up on an empty store and answered with a three-row sample feed. The rows are saved and the directions are 0, 0, 1. The orders are "1", "2", "3", and the names "Centro-Main", "Centro-Main", "Bairro-Second" have lost their first segment. |

## Left out

- Reading the cache file and `JSON.parse` (src/dataaccess/itinerary.js:46-53): the store is a map from line to rows. A missing or corrupt file is modelled as a line absent from the map. The file path (output directory + `/` + line) is not modelled, so two lines that name the same file are not identified.
- `storeData` (src/dataaccess/itinerary.js:88-102): the asynchronous, fire-and-forget write is modelled as an immediate map update. Two `getItinerary` calls for one line that start before the write completes would both miss and both fetch; the model does not cover that interleaving. Its JSON round trip is assumed exact, and its write errors, thrown inside callbacks, are not modelled.
- The HTTP GET and its request options (src/dataaccess/itinerary.js:69-76, 79): the client is not part of this model. It is the parameter `get` from URL to status and body.
- Logger calls (`info`, `alert`): side effects with no data contract. `Feed.Classify` names the branch that logs each status, but the message text is not modelled.
- Itinerary.FromFields: a row with fewer than seven fields is refused (`None`). The source treats short rows in three ways:
  - with one field, reading `it[1].split` throws a TypeError;
  - with two or three fields, `it[3]` is `undefined`, so the row never counts as a terminus, its direction is NaN and the missing fields are `undefined`;
  - with four to six fields, `it[3]` is defined, so the row moves `returning` like any other row (a "0" is a terminus) and its direction is a number; only the missing fields among `it[4]`..`it[6]` are `undefined`.
- Itinerary.RawRow: the marker's numeric conversion is a parameter yielding an integer. Non-numeric markers (NaN, never equal to 0, with a NaN direction) and fractional markers are not modelled. JavaScript's `-0` is not told apart from 0. It arises, for example, from a terminus on the return leg, from a negative marker before the first terminus (`"-5" * 0`), or from a `"-0"` marker.
- The `Itinerary` constructor is not part of this model: a stop records the constructor's seven arguments in call order.
- src/resources/serverLogResource.ts and src/config.js: a REST handler that forwards to a service not shown here, and environment configuration with no logic.

=== FILE: dataaccess.dfy ===
/**
 * `getItinerary` end to end: look the line up in the local store, on a miss
 * fetch and decode the provider's feed and store the rows, then assemble the
 * stops. The store is a map from line to the rows saved for it; the HTTP GET
 * is the parameter `get`, from request URL to response.
 */
module DataAccess {
  import opened Wrappers
  import opened Feed
  import opened Itinerary
  import opened Url
  import Strings

  /** The local store: the rows saved for each line already fetched. */
  type Cache = map<string, seq<Fields>>

  /** Where the provider lives: its host and its path template holding `$$`. */
  datatype Provider = Provider(host: string, template: string)

  /** The rows a lookup yields and the store after it. */
  datatype Retrieved = Retrieved(rows: seq<Fields>, cache: Cache)

  /** The outcome of `getItinerary`: the stops (none when a row is too short) and the store after it. */
  datatype Lookup = Lookup(stops: Option<seq<Stop>>, cache: Cache)

  /**
   * `retrieveData`: a line already in the store yields the saved rows and
   * leaves the store alone; a missing line is fetched from its request URL,
   * decoded, and saved under the line, whatever the answer was.
   */
  function RetrieveData(cache: Cache, provider: Provider, line: string, get: string -> Response): (r: Retrieved)
    ensures line in r.cache && r.cache[line] == r.rows
    ensures r.cache.Keys == cache.Keys + {line}
    ensures forall l | l in cache && l != line :: r.cache[l] == cache[l]
    ensures line in cache ==> r.rows == cache[line] && r.cache == cache
    ensures line !in cache ==>
      r.rows == RespondRequest(get(RequestUrl(provider.host, provider.template, line)))
  {
    if line in cache then Retrieved(cache[line], cache)
    else
      var rows := RespondRequest(get(RequestUrl(provider.host, provider.template, line)));
      Retrieved(rows, cache[line := rows])
  }

  /** `getItinerary`: the retrieved rows assembled into stops. */
  function GetItinerary(cache: Cache, provider: Provider, line: string, get: string -> Response,
                        toNumber: string -> int): (r: Lookup)
    ensures r.cache == RetrieveData(cache, provider, line, get).cache
    ensures var rows := RetrieveData(cache, provider, line, get).rows;
      && (r.stops.None? <==> exists j | 0 <= j < |rows| :: Short(rows[j]))
      && (r.stops.Some? ==> |r.stops.value| == |rows|)
  {
    var retrieved := RetrieveData(cache, provider, line, get);
    match FromFieldRows(retrieved.rows, toNumber)
    case None => Lookup(None, retrieved.cache)
    case Some(raw) => Lookup(Some(Assemble(raw)), retrieved.cache)
  }

  /**
   * Stop `i` of `getItinerary` is built from retrieved row `i`: fields 0, 2,
   * 4, 5 and 6 pass through, the name is field 1 cleaned, and the direction is
   * field 3 as a number times the sign of the leg that the termini among rows
   * 0..i select.
   */
  lemma ItineraryStops(cache: Cache, provider: Provider, line: string, get: string -> Response,
                       toNumber: string -> int, i: nat)
    requires GetItinerary(cache, provider, line, get, toNumber).stops.Some?
    requires i < |RetrieveData(cache, provider, line, get).rows|
    ensures var rows := RetrieveData(cache, provider, line, get).rows;
      var raw := FromFieldRows(rows, toNumber);
      var stop := GetItinerary(cache, provider, line, get, toNumber).stops.value[i];
      && raw.Some?
      && stop.order == rows[i][0]
      && stop.name == CleanName(rows[i][1])
      && stop.lat == rows[i][2]
      && stop.lon == rows[i][4]
      && stop.extra1 == rows[i][5]
      && stop.extra2 == rows[i][6]
      && stop.direction == toNumber(rows[i][3]) * LegAfter(Termini(raw.value[..i + 1])).Sign()
  {
    var rows := RetrieveData(cache, provider, line, get).rows;
    var raw := FromFieldRows(rows, toNumber).value;
    assert FromFields(rows[i], toNumber) == Some(raw[i]);
    AssemblePassThrough(raw, Undetermined, i);
    AssembleByTermini(raw);
  }

  /**
   * A second lookup of the same line is a store hit: it yields the rows of the
   * first, whatever the provider would answer now, and changes nothing.
   */
  lemma SecondLookupHits(cache: Cache, provider: Provider, line: string, get: string -> Response,
                         get': string -> Response)
    ensures var first := RetrieveData(cache, provider, line, get);
      RetrieveData(first.cache, provider, line, get') == first
  {
  }

  /**
   * Consecutive `getItinerary` calls for one line give the same stops: the
   * saved rows reproduce what the fetch produced.
   */
  lemma RepeatedItinerary(cache: Cache, provider: Provider, line: string, get: string -> Response,
                          get': string -> Response, toNumber: string -> int)
    ensures var first := GetItinerary(cache, provider, line, get, toNumber);
      GetItinerary(first.cache, provider, line, get', toNumber) == first
  {
    SecondLookupHits(cache, provider, line, get, get');
  }

  /**
   * A failed fetch is saved too: after a non-200 answer for a line not in the
   * store, the line holds no rows and later lookups keep yielding no stops.
   */
  lemma FailedFetchIsSaved(cache: Cache, provider: Provider, line: string, get: string -> Response,
                           get': string -> Response, toNumber: string -> int)
    requires line !in cache
    requires get(RequestUrl(provider.host, provider.template, line)).statusCode != 200
    ensures var first := GetItinerary(cache, provider, line, get, toNumber);
      && first.stops == Some([])
      && first.cache[line] == []
      && GetItinerary(first.cache, provider, line, get', toNumber).stops == Some([])
  {
    SecondLookupHits(cache, provider, line, get, get');
  }

  /** The header line of the sample feed below. */
  const SampleHeader: string := "id,desc,lat,flag,lon,a,b"

  /** Three sample rows; the middle one is the only terminus. */
  predicate IsSample(rows: seq<Fields>) {
    rows == [
      ["1", "10-Centro-Main", "-23.5", "1", "-46.6", "x", "y"],
      ["2", "10-Centro-Main", "-23.5", "0", "-46.6", "x", "y"],
      ["3", "10-Bairro-Second", "-23.6", "1", "-46.7", "x", "y"]
    ]
  }

  /** The sample rows can be carried by the feed format. */
  lemma SampleEncodable(rows: seq<Fields>)
    requires IsSample(rows)
    ensures Encodable(rows)
  {
    forall j, k | 0 <= j < |rows| && 0 <= k < |rows[j]| ensures Strings.Avoids(rows[j][k], FieldBad) {
      var f := rows[j][k];
      forall i | 0 <= i < |f| ensures f[i] !in FieldBad { }
    }
    forall j | 0 <= j < |rows| ensures Strings.Join(rows[j], ',') != "" {
      assert |rows[j]| == 7;
      assert Strings.Join(rows[j], ',') == rows[j][0] + [','] + Strings.Join(rows[j][1..], ',');
    }
  }

  /** The name cleanup on the sample descriptions. */
  lemma SampleNames(c: string, b: string)
    requires c == "10-Centro-Main" && b == "10-Bairro-Second"
    ensures CleanName(c) == "Centro-Main" && CleanName(b) == "Bairro-Second"
  {
    assert c[2] == '-' && '-' !in c[..2] && c[3..] == "Centro-Main";
    CleanNameAfterFirstDash(c, 2);
    assert b[2] == '-' && '-' !in b[..2] && b[3..] == "Bairro-Second";
    CleanNameAfterFirstDash(b, 2);
  }

  /** The sample feed decodes to the sample rows. */
  lemma SampleDecodes(rows: seq<Fields>)
    requires IsSample(rows)
    ensures RespondRequest(Response(200, Encode(SampleHeader, rows))) == rows
  {
    SampleEncodable(rows);
    assert '\n' !in SampleHeader;
    RoundTrip(SampleHeader, rows);
  }

  /** The sample rows assemble into stops with directions 0, 0, 1 and the cleaned names. */
  lemma SampleAssembles(rows: seq<Fields>, toNumber: string -> int)
    requires IsSample(rows)
    requires toNumber("0") == 0 && toNumber("1") == 1
    ensures var raw := FromFieldRows(rows, toNumber);
      && raw.Some?
      && DirectionsOf(Assemble(raw.value)) == [0, 0, 1]
      && Assemble(raw.value)[0].name == "Centro-Main"
      && Assemble(raw.value)[1].name == "Centro-Main"
      && Assemble(raw.value)[2].name == "Bairro-Second"
      && Assemble(raw.value)[0].order == "1"
      && Assemble(raw.value)[1].order == "2"
      && Assemble(raw.value)[2].order == "3"
  {
    var raw := FromFieldRows(rows, toNumber);
    assert raw.Some?;
    forall j | 0 <= j < 3 ensures FromFields(rows[j], toNumber) == Some(raw.value[j]) { }
    assert Markers(raw.value) == [1, 0, 1];
    LeadingRowExample(raw.value);
    AssemblePassThrough(raw.value, Undetermined, 0);
    AssemblePassThrough(raw.value, Undetermined, 1);
    AssemblePassThrough(raw.value, Undetermined, 2);
    SampleNames(raw.value[0].f1, raw.value[2].f1);
    assert raw.value[1].f1 == raw.value[0].f1;
  }

  /**
   * A first lookup of line "100" on an empty store, answered with the sample
   * feed: the decoded rows are saved, and the stops get the directions 0, 0, 1
   * (the row before the first terminus has no leg yet) and the cleaned names.
   */
  lemma SampleLookup(provider: Provider, get: string -> Response, toNumber: string -> int, rows: seq<Fields>)
    requires IsSample(rows)
    requires toNumber("0") == 0 && toNumber("1") == 1
    requires get(RequestUrl(provider.host, provider.template, "100")) == Response(200, Encode(SampleHeader, rows))
    ensures var r := GetItinerary(map[], provider, "100", get, toNumber);
      && r.cache == map["100" := rows]
      && r.stops.Some?
      && DirectionsOf(r.stops.value) == [0, 0, 1]
      && r.stops.value[0].name == "Centro-Main"
      && r.stops.value[1].name == "Centro-Main"
      && r.stops.value[2].name == "Bairro-Second"
      && r.stops.value[0].order == "1"
      && r.stops.value[1].order == "2"
      && r.stops.value[2].order == "3"
  {
    SampleDecodes(rows);
    SampleAssembles(rows, toNumber);
  }
}

=== FILE: feed.dfy ===
/**
 * The feed decoder of the itinerary data-access layer: it classifies the HTTP
 * status of the provider's answer and, on 200, turns the CSV-like body into
 * rows of string fields.
 */
module Feed {
  import opened Strings

  /** One decoded feed line: its comma-separated fields. */
  type Fields = seq<string>

  /** The provider's answer as the HTTP client hands it over. */
  datatype Response = Response(statusCode: int, body: string)

  /** The branches of the status switch; each non-200 branch logs its own alert. */
  datatype Status = Ok | MovedTemporarily | NotFound | Unavailable | OtherError(code: int)

  /** Characters treated as feed noise and deleted before the body is split. */
  const Noise: set<char> := {'\r', '"'}

  /** Characters no decoded field can contain. */
  const FieldBad: set<char> := {',', '"', '\r', '\n'}

  /** The case of the status switch that handles `statusCode`. */
  function Classify(statusCode: int): (s: Status)
    ensures s == Ok <==> statusCode == 200
    ensures s == MovedTemporarily <==> statusCode == 302
    ensures s == NotFound <==> statusCode == 404
    ensures s == Unavailable <==> statusCode == 503
    ensures s.OtherError? ==> s.code == statusCode
  {
    if statusCode == 200 then Ok
    else if statusCode == 302 then MovedTemporarily
    else if statusCode == 404 then NotFound
    else if statusCode == 503 then Unavailable
    else OtherError(statusCode)
  }

  /** The body's lines after noise removal; the first one is the header. */
  function Lines(body: string): (lines: seq<string>)
    ensures |lines| >= 1
  {
    Split(Remove(body, Noise), '\n')
  }

  /** The non-empty strings of `lines`, in order. */
  function NonEmpty(lines: seq<string>): (kept: seq<string>)
    ensures |kept| <= |lines|
    ensures forall j | 0 <= j < |kept| :: kept[j] != ""
  {
    if |lines| == 0 then []
    else if lines[0] == "" then NonEmpty(lines[1..])
    else [lines[0]] + NonEmpty(lines[1..])
  }

  /**
   * The loop over the data lines: empty lines are skipped, every other line is
   * split on commas. Row `j` joins back to the `j`-th non-empty line.
   */
  function RowsOf(lines: seq<string>): (rows: seq<Fields>)
    ensures |rows| == |NonEmpty(lines)|
    ensures forall j | 0 <= j < |rows| :: Join(rows[j], ',') == NonEmpty(lines)[j]
    ensures forall j | 0 <= j < |rows| :: |rows[j]| >= 1
    ensures forall j, k | 0 <= j < |rows| && 0 <= k < |rows[j]| :: ',' !in rows[j][k]
  {
    if |lines| == 0 then []
    else if lines[0] == "" then RowsOf(lines[1..])
    else
      JoinSplit(lines[0], ',');
      [Split(lines[0], ',')] + RowsOf(lines[1..])
  }

  /** `respondRequest`: the rows a response decodes to. */
  function RespondRequest(response: Response): (rows: seq<Fields>)
    ensures Classify(response.statusCode) != Ok ==> rows == []
    ensures Classify(response.statusCode) == Ok ==>
      var data := NonEmpty(Lines(response.body)[1..]);
      && |rows| == |data|
      && forall j | 0 <= j < |rows| :: Join(rows[j], ',') == data[j]
    ensures forall j, k | 0 <= j < |rows| && 0 <= k < |rows[j]| :: Avoids(rows[j][k], FieldBad)
    ensures response.body == "" ==> rows == []
  {
    match Classify(response.statusCode)
    case Ok =>
      DecodedFieldsAvoid(response.body);
      RowsOf(Lines(response.body)[1..])
    case MovedTemporarily => []
    case NotFound => []
    case Unavailable => []
    case OtherError(_) => []
  }

  /** No field decoded from a 200 body holds a comma, a quote, `\r` or `\n`. */
  lemma DecodedFieldsAvoid(body: string)
    ensures forall j, k | 0 <= j < |RowsOf(Lines(body)[1..])| && 0 <= k < |RowsOf(Lines(body)[1..])[j]| ::
      Avoids(RowsOf(Lines(body)[1..])[j][k], FieldBad)
  {
    var lines := Lines(body);
    SplitAvoids(Remove(body, Noise), '\n', Noise);
    forall i | 0 <= i < |lines| ensures Avoids(lines[i], Noise - {','}) && '\n' !in lines[i] { }
    LinesAvoid(lines[1..]);
  }

  /** Rows split from lines free of noise and newlines have clean fields. */
  lemma {:induction false} LinesAvoid(lines: seq<string>)
    requires forall i | 0 <= i < |lines| :: Avoids(lines[i], Noise - {','}) && '\n' !in lines[i]
    ensures var rows := RowsOf(lines);
      forall j, k | 0 <= j < |rows| && 0 <= k < |rows[j]| :: Avoids(rows[j][k], FieldBad)
  {
    if |lines| > 0 {
      LinesAvoid(lines[1..]);
      var l := lines[0];
      assert Avoids(l, FieldBad - {','}) by {
        forall i | 0 <= i < |l| ensures l[i] !in FieldBad - {','} {
          assert l[i] in l;
        }
      }
      SplitAvoids(l, ',', FieldBad - {','});
      var rows := RowsOf(lines);
      if l != "" {
        var first := Split(l, ',');
        assert rows == [first] + RowsOf(lines[1..]);
        forall k | 0 <= k < |first| ensures Avoids(first[k], FieldBad) {
          assert ',' !in first[k];
          forall i | 0 <= i < |first[k]| ensures first[k][i] !in FieldBad {
            assert first[k][i] in first[k];
          }
        }
      }
    }
  }

  /** One feed line per row: the row's fields joined by commas. */
  function EncodeLines(rows: seq<Fields>): seq<string> {
    seq(|rows|, j requires 0 <= j < |rows| => Join(rows[j], ','))
  }

  /** A body the provider could send for `rows`: a header line, then one line per row. */
  function Encode(header: string, rows: seq<Fields>): string {
    Join([header] + EncodeLines(rows), '\n')
  }

  /** Rows the feed format can carry: each is a non-empty line of clean fields. */
  predicate Encodable(rows: seq<Fields>) {
    forall j | 0 <= j < |rows| ::
      && Join(rows[j], ',') != ""
      && forall k | 0 <= k < |rows[j]| :: Avoids(rows[j][k], FieldBad)
  }

  /** Decoding a 200 answer whose body encodes `rows` gives back exactly `rows`. */
  lemma RoundTrip(header: string, rows: seq<Fields>)
    requires '\n' !in header
    requires Encodable(rows)
    ensures RespondRequest(Response(200, Encode(header, rows))) == rows
  {
    var lines := EncodeLines(rows);
    forall j | 0 <= j < |lines|
      ensures Avoids(lines[j], FieldBad - {','}) && lines[j] != ""
    {
      JoinAvoids(rows[j], ',', FieldBad - {','});
    }
    var clean := Remove(header, Noise);
    CleanBody(header, lines);
    RemoveKeepsAbsent(header, Noise, '\n');
    forall j | 0 <= j < |[clean] + lines| ensures '\n' !in ([clean] + lines)[j] {
      if j > 0 {
        assert ([clean] + lines)[j] == lines[j - 1];
        AvoidsNotIn(lines[j - 1], FieldBad - {','}, '\n');
      }
    }
    SplitJoin([clean] + lines, '\n');
    assert Lines(Encode(header, rows))[1..] == lines;
    NonEmptyKeepsAll(lines);
    var decoded := RowsOf(lines);
    assert |decoded| == |rows|;
    forall j | 0 <= j < |rows| ensures decoded[j] == rows[j] {
      forall k | 0 <= k < |rows[j]| ensures ',' !in rows[j][k] {
        AvoidsNotIn(rows[j][k], FieldBad, ',');
      }
      SplitJoin(rows[j], ',');
      SplitJoin(decoded[j], ',');
    }
  }

  /** Noise removal only touches the header of an encoded body. */
  lemma CleanBody(header: string, lines: seq<string>)
    requires forall j | 0 <= j < |lines| :: Avoids(lines[j], Noise)
    ensures Remove(Join([header] + lines, '\n'), Noise) == Join([Remove(header, Noise)] + lines, '\n')
  {
    if |lines| > 0 {
      var rest := Join(lines, '\n');
      assert ([header] + lines)[1..] == lines;
      assert ([Remove(header, Noise)] + lines)[1..] == lines;
      JoinAvoids(lines, '\n', Noise);
      RemoveNothing(rest, Noise);
      RemoveAppend(header + ['\n'], rest, Noise);
      RemoveAppend(header, ['\n'], Noise);
      assert Remove(['\n'], Noise) == ['\n'];
    }
  }

  /** Filtering lines that are all non-empty keeps them all. */
  lemma {:induction false} NonEmptyKeepsAll(lines: seq<string>)
    requires forall j | 0 <= j < |lines| :: lines[j] != ""
    ensures NonEmpty(lines) == lines
  {
    if |lines| > 0 {
      NonEmptyKeepsAll(lines[1..]);
      assert lines == [lines[0]] + lines[1..];
    }
  }

  /** Exactly the non-empty lines are kept: nothing else, and none is lost. */
  lemma {:induction false} NonEmptyMembers(lines: seq<string>, x: string)
    ensures x in NonEmpty(lines) <==> x in lines && x != ""
  {
    if |lines| > 0 {
      NonEmptyMembers(lines[1..], x);
      assert lines == [lines[0]] + lines[1..];
    }
  }

  /** Filtering distributes over concatenation, so the kept lines keep their order. */
  lemma {:induction false} NonEmptyAppend(a: seq<string>, b: seq<string>)
    ensures NonEmpty(a + b) == NonEmpty(a) + NonEmpty(b)
  {
    if |a| > 0 {
      assert (a + b)[1..] == a[1..] + b;
      NonEmptyAppend(a[1..], b);
    } else {
      assert a + b == b;
    }
  }
}

=== FILE: itinerary.dfy ===
/**
 * The assembly loop of `getItinerary`: one forward pass over the decoded rows
 * that infers each stop's direction from the terminus markers and cleans up
 * the stop name. The loop's mutable `returning` variable is threaded through
 * a recursive fold as an explicit `Leg` state.
 */
module Itinerary {
  import opened Wrappers
  import opened Strings

  /**
   * A feed row by position. `f3` is the numeric value of the directional
   * marker (zero marks a terminus); the other fields are kept as text.
   */
  datatype RawRow = RawRow(f0: string, f1: string, f2: string, f3: int, f4: string, f5: string, f6: string)

  /**
   * An assembled stop, its fields in the argument order of the `Itinerary`
   * constructor call: direction, then f0, the cleaned name, f2, f4, f5, f6.
   */
  datatype Stop = Stop(direction: int, order: string, name: string, lat: string, lon: string, extra1: string, extra2: string)

  /**
   * The `returning` variable: 0 before the first terminus, 1 on the outbound
   * leg, -1 on the return leg.
   */
  datatype Leg = Undetermined | Outbound | Return {
    /** The value `returning` holds in the loop. */
    function Sign(): int {
      match this
      case Undetermined => 0
      case Outbound => 1
      case Return => -1
    }

    /** How many termini the pass has counted, capped at two. */
    function Rank(): nat {
      match this
      case Undetermined => 0
      case Outbound => 1
      case Return => 2
    }
  }

  /** The leg the pass is on after counting `n` termini. */
  function LegAfter(n: nat): Leg {
    if n == 0 then Undetermined else if n == 1 then Outbound else Return
  }

  /** Number of terminus rows (marker zero) in `rows`. */
  function Termini(rows: seq<RawRow>): nat {
    if |rows| == 0 then 0
    else (if rows[0].f3 == 0 then 1 else 0) + Termini(rows[1..])
  }

  /**
   * The update of `returning` for a row whose marker is `marker`: the state only
   * moves forward, one step at a time, only on a terminus, and every terminus
   * moves it unless the return leg has been reached.
   */
  function Step(leg: Leg, marker: int): (next: Leg)
    ensures leg.Rank() <= next.Rank() <= leg.Rank() + 1
    ensures next != leg <==> marker == 0 && leg != Return
  {
    if marker == 0 && leg == Undetermined then Outbound
    else if marker == 0 && leg == Outbound then Return
    else leg
  }

  /**
   * The name cleanup: `f1` split on dashes, the first piece dropped, the rest
   * rejoined with dashes.
   */
  function CleanName(f1: string): string {
    Join(Split(f1, '-')[1..], '-')
  }

  /** Without a dash the cleaned name is empty. */
  lemma CleanNameWithoutDash(f1: string)
    requires '-' !in f1
    ensures CleanName(f1) == ""
  {
    SplitWithoutSeparator(f1, '-');
  }

  /** With a first dash at `k`, the cleaned name is the text after it. */
  lemma CleanNameAfterFirstDash(f1: string, k: nat)
    requires k < |f1| && f1[k] == '-' && '-' !in f1[..k]
    ensures CleanName(f1) == f1[k + 1..]
  {
    assert f1 == f1[..k] + ['-'] + f1[k + 1..];
    SplitAtFirstSeparator(f1[..k], f1[k + 1..], '-');
    assert Split(f1, '-')[1..] == Split(f1[k + 1..], '-');
    JoinSplit(f1[k + 1..], '-');
  }

  /** The stop built from `row` once the state has been updated to `leg`. */
  function MakeStop(row: RawRow, leg: Leg): Stop {
    Stop(row.f3 * leg.Sign(), row.f0, CleanName(row.f1), row.f2, row.f4, row.f5, row.f6)
  }

  /**
   * The loop from state `leg` on: each row first updates the state, then
   * yields its stop with the updated state.
   */
  function AssembleFrom(rows: seq<RawRow>, leg: Leg): (stops: seq<Stop>)
    ensures |stops| == |rows|
  {
    if |rows| == 0 then []
    else
      var next := Step(leg, rows[0].f3);
      [MakeStop(rows[0], next)] + AssembleFrom(rows[1..], next)
  }

  /**
   * One stop per row, in row order: stop `i` has row `i`'s `f0`, `f2`, `f4`,
   * `f5`, `f6` untouched and the cleaned `f1` as its name.
   */
  lemma {:induction false} AssemblePassThrough(rows: seq<RawRow>, leg: Leg, i: nat)
    requires i < |rows|
    ensures var stop := AssembleFrom(rows, leg)[i];
      && stop.order == rows[i].f0
      && stop.name == CleanName(rows[i].f1)
      && stop.lat == rows[i].f2
      && stop.lon == rows[i].f4
      && stop.extra1 == rows[i].f5
      && stop.extra2 == rows[i].f6
    decreases i
  {
    if i > 0 {
      AssembleFromTail(rows, leg, i);
      AssemblePassThrough(rows[1..], Step(leg, rows[0].f3), i - 1);
      assert rows[1..][i - 1] == rows[i];
    }
  }

  /** `getItinerary`'s loop: the pass starts with `returning` at 0. */
  function Assemble(rows: seq<RawRow>): (stops: seq<Stop>)
    ensures |stops| == |rows|
  {
    AssembleFrom(rows, Undetermined)
  }

  /** A row with fewer than seven fields; the model refuses it. */
  predicate Short(fields: seq<string>) {
    |fields| < 7
  }

  /**
   * The positional reading of one decoded row; `toNumber` is the numeric
   * conversion JavaScript applies to the marker field in `it[3]==0` and
   * `it[3]*returning`. Fields past the seventh are ignored.
   */
  function FromFields(fields: seq<string>, toNumber: string -> int): (row: Option<RawRow>)
    ensures row.None? <==> Short(fields)
    ensures row.Some? ==>
      && row.value.f0 == fields[0] && row.value.f1 == fields[1] && row.value.f2 == fields[2]
      && row.value.f3 == toNumber(fields[3])
      && row.value.f4 == fields[4] && row.value.f5 == fields[5] && row.value.f6 == fields[6]
  {
    if Short(fields) then None
    else Some(RawRow(fields[0], fields[1], fields[2], toNumber(fields[3]), fields[4], fields[5], fields[6]))
  }

  /** Every decoded row read positionally, or `None` when one of them is short. */
  function FromFieldRows(rows: seq<seq<string>>, toNumber: string -> int): (raw: Option<seq<RawRow>>)
    ensures raw.None? <==> exists j | 0 <= j < |rows| :: Short(rows[j])
    ensures raw.Some? ==>
      && |raw.value| == |rows|
      && forall j | 0 <= j < |rows| :: FromFields(rows[j], toNumber) == Some(raw.value[j])
  {
    if |rows| == 0 then Some([])
    else
      match (FromFields(rows[0], toNumber), FromFieldRows(rows[1..], toNumber))
      case (Some(r), Some(rest)) => Some([r] + rest)
      case (None, _) => None
      case (_, None) =>
        var j :| 0 <= j < |rows[1..]| && Short(rows[1..][j]);
        assert Short(rows[j + 1]);
        None
  }

  /** Updating the state for one row adds that row to the terminus count. */
  lemma StepCounts(n: nat, marker: int)
    ensures Step(LegAfter(n), marker) == LegAfter(n + if marker == 0 then 1 else 0)
  {
  }

  /** Termini of a one-row-longer prefix. */
  lemma TerminiPrefix(rows: seq<RawRow>, i: nat)
    requires 0 <= i < |rows|
    ensures |rows| > 0 && Termini(rows[..i + 1]) == (if rows[0].f3 == 0 then 1 else 0) + Termini(rows[1..][..i])
  {
    assert rows[..i + 1][1..] == rows[1..][..i];
  }

  /** The first stop of a pass is built with the state updated by the first row. */
  lemma AssembleFromHead(rows: seq<RawRow>, leg: Leg)
    requires |rows| > 0
    ensures AssembleFrom(rows, leg)[0].direction == rows[0].f3 * Step(leg, rows[0].f3).Sign()
  {
  }

  /** The later stops of a pass are the pass over the remaining rows from the updated state. */
  lemma AssembleFromTail(rows: seq<RawRow>, leg: Leg, i: nat)
    requires 0 < i < |rows|
    ensures AssembleFrom(rows, leg)[i] == AssembleFrom(rows[1..], Step(leg, rows[0].f3))[i - 1]
  {
  }

  /**
   * Starting after `n` termini, stop `i` gets the sign of the leg reached after
   * counting the termini of rows 0..i, the row itself included.
   */
  lemma {:induction false} AssembleFromLegs(rows: seq<RawRow>, n: nat, i: nat)
    requires i < |rows|
    ensures AssembleFrom(rows, LegAfter(n))[i].direction
         == rows[i].f3 * LegAfter(n + Termini(rows[..i + 1])).Sign()
    decreases i
  {
    var bump := if rows[0].f3 == 0 then 1 else 0;
    StepCounts(n, rows[0].f3);
    TerminiPrefix(rows, i);
    if i == 0 {
      AssembleFromHead(rows, LegAfter(n));
      assert rows[1..][..0] == [];
    } else {
      AssembleFromTail(rows, LegAfter(n), i);
      AssembleFromLegs(rows[1..], n + bump, i - 1);
      assert rows[1..][..i - 1 + 1] == rows[1..][..i];
      assert rows[1..][i - 1] == rows[i];
    }
  }

  /**
   * The direction inference stated without the loop state: stop `i` gets row
   * `i`'s marker times the sign of the leg fixed by how many termini rows 0..i
   * hold — 0 for none, 1 for one, -1 for two or more.
   */
  lemma AssembleByTermini(rows: seq<RawRow>)
    ensures forall i | 0 <= i < |rows| ::
      Assemble(rows)[i].direction == rows[i].f3 * LegAfter(Termini(rows[..i + 1])).Sign()
  {
    var stops := AssembleFrom(rows, LegAfter(0));
    assert Assemble(rows) == stops;
    forall i | 0 <= i < |rows|
      ensures stops[i].direction == rows[i].f3 * LegAfter(Termini(rows[..i + 1])).Sign()
    {
      AssembleFromLegs(rows, 0, i);
    }
  }

  /**
   * The consequences for each stop's direction: a terminus row gets 0; a row
   * with no terminus at or before it gets 0; a row with exactly one gets its
   * marker; a row with two or more gets its negated marker.
   */
  lemma Directions(rows: seq<RawRow>, i: nat)
    requires i < |rows|
    ensures rows[i].f3 == 0 ==> Assemble(rows)[i].direction == 0
    ensures Termini(rows[..i + 1]) == 0 ==> Assemble(rows)[i].direction == 0
    ensures Termini(rows[..i + 1]) == 1 ==> Assemble(rows)[i].direction == rows[i].f3
    ensures Termini(rows[..i + 1]) >= 2 ==> Assemble(rows)[i].direction == -rows[i].f3
  {
    AssembleByTermini(rows);
  }

  /** A prefix without terminus rows counts none. */
  lemma {:induction false} NoTermini(rows: seq<RawRow>)
    requires forall j | 0 <= j < |rows| :: rows[j].f3 != 0
    ensures Termini(rows) == 0
  {
    if |rows| > 0 {
      NoTermini(rows[1..]);
    }
  }

  /** Every row before the first terminus, and every terminus row, gets direction 0. */
  lemma BeforeFirstTerminus(rows: seq<RawRow>, i: nat)
    requires i < |rows|
    requires forall j | 0 <= j < i :: rows[j].f3 != 0
    ensures Assemble(rows)[i].direction == 0
  {
    Directions(rows, i);
    if rows[i].f3 != 0 {
      NoTermini(rows[..i + 1]);
    }
  }

  /** The markers of the rows, in order. */
  function Markers(rows: seq<RawRow>): seq<int> {
    seq(|rows|, j requires 0 <= j < |rows| => rows[j].f3)
  }

  /** The directions of the stops, in order. */
  function DirectionsOf(stops: seq<Stop>): seq<int> {
    seq(|stops|, i requires 0 <= i < |stops| => stops[i].direction)
  }

  /** Appending a row adds one to the terminus count exactly when it is a terminus. */
  lemma {:induction false} TerminiAppend(rows: seq<RawRow>, row: RawRow)
    ensures Termini(rows + [row]) == Termini(rows) + if row.f3 == 0 then 1 else 0
  {
    if |rows| > 0 {
      assert (rows + [row])[1..] == rows[1..] + [row];
      TerminiAppend(rows[1..], row);
    } else {
      assert [] + [row] == [row];
    }
  }

  /** The terminus count of the prefix ending at row `i`. */
  lemma TerminiStep(rows: seq<RawRow>, i: nat)
    requires i < |rows|
    ensures Termini(rows[..i + 1]) == Termini(rows[..i]) + if rows[i].f3 == 0 then 1 else 0
  {
    assert rows[..i + 1] == rows[..i] + [rows[i]];
    TerminiAppend(rows[..i], rows[i]);
  }

  /** Two legs: markers 0,5,6,0,5,6 give directions 0,5,6,0,-5,-6. */
  lemma TwoLegsExample(rows: seq<RawRow>)
    requires Markers(rows) == [0, 5, 6, 0, 5, 6]
    ensures DirectionsOf(Assemble(rows)) == [0, 5, 6, 0, -5, -6]
  {
    assert |rows| == 6;
    assert rows[..0] == [];
    forall i | 0 <= i < 6 ensures rows[i].f3 == Markers(rows)[i] { }
    TerminiStep(rows, 0);
    TerminiStep(rows, 1);
    TerminiStep(rows, 2);
    TerminiStep(rows, 3);
    TerminiStep(rows, 4);
    TerminiStep(rows, 5);
    assert Termini(rows[..1]) == 1 && Termini(rows[..2]) == 1 && Termini(rows[..3]) == 1;
    assert Termini(rows[..4]) == 2 && Termini(rows[..5]) == 2 && Termini(rows[..6]) == 2;
    AssembleByTermini(rows);
  }

  /** Rows before the first terminus get direction 0: markers 1,0,1 give 0,0,1. */
  lemma LeadingRowExample(rows: seq<RawRow>)
    requires Markers(rows) == [1, 0, 1]
    ensures DirectionsOf(Assemble(rows)) == [0, 0, 1]
  {
    assert |rows| == 3;
    assert rows[..0] == [];
    forall i | 0 <= i < 3 ensures rows[i].f3 == Markers(rows)[i] { }
    TerminiStep(rows, 0);
    TerminiStep(rows, 1);
    TerminiStep(rows, 2);
    AssembleByTermini(rows);
  }

  /** The name cleanup keeps everything after the first dash. */
  lemma CleanNameExamples(s: string, t: string)
    requires s == "12-Downtown-Main St" && t == "Downtown"
    ensures CleanName(s) == "Downtown-Main St"
    ensures CleanName(t) == ""
  {
    assert s[2] == '-' && '-' !in s[..2];
    CleanNameAfterFirstDash(s, 2);
    assert s[3..] == "Downtown-Main St";
    CleanNameWithoutDash(t);
  }
}

=== FILE: strings.dfy ===
/**
 * String helpers with the semantics of the JavaScript built-ins the data-access
 * layer relies on: `s.split(c)` and `parts.join(c)` for a one-character
 * separator `c`, and `s.replace(/c/g, "")` for deleting every occurrence of a
 * character.
 */
module Strings {

  /** No character of `s` belongs to `bad`. */
  predicate Avoids(s: string, bad: set<char>) {
    forall i | 0 <= i < |s| :: s[i] !in bad
  }

  /**
   * `s.split(sep)`: the maximal separator-free pieces of `s`, in order. Like
   * JavaScript, the empty string splits into one empty piece, and a separator
   * at either end yields an empty piece there.
   */
  function Split(s: string, sep: char): (parts: seq<string>)
    ensures |parts| >= 1
    ensures forall i | 0 <= i < |parts| :: sep !in parts[i]
  {
    if |s| == 0 then [""]
    else
      var rest := Split(s[1..], sep);
      if s[0] == sep then [""] + rest
      else [[s[0]] + rest[0]] + rest[1..]
  }

  /** `parts.join(sep)`: the pieces with one separator between neighbours. */
  function Join(parts: seq<string>, sep: char): string
  {
    if |parts| == 0 then ""
    else if |parts| == 1 then parts[0]
    else parts[0] + [sep] + Join(parts[1..], sep)
  }

  /** `s.replace(/c/g, "")` for every `c` in `bad`: `s` with those characters deleted. */
  function Remove(s: string, bad: set<char>): (r: string)
    ensures Avoids(r, bad)
    ensures |r| <= |s|
  {
    if |s| == 0 then ""
    else (if s[0] in bad then "" else [s[0]]) + Remove(s[1..], bad)
  }

  /** Joining the pieces of a split gives back the original string. */
  lemma {:induction false} JoinSplit(s: string, sep: char)
    ensures Join(Split(s, sep), sep) == s
  {
    if |s| > 0 {
      var rest := Split(s[1..], sep);
      JoinSplit(s[1..], sep);
      if s[0] == sep {
        assert Join([""] + rest, sep) == "" + [sep] + Join(rest, sep);
        assert s == [s[0]] + s[1..];
      } else if |rest| == 1 {
        assert s == [s[0]] + s[1..];
      } else {
        var parts := [[s[0]] + rest[0]] + rest[1..];
        assert parts[1..] == rest[1..];
        assert Join(rest, sep) == rest[0] + [sep] + Join(rest[1..], sep);
        assert s == [s[0]] + s[1..];
      }
    }
  }

  /** A string without the separator splits into itself. */
  lemma {:induction false} SplitWithoutSeparator(s: string, sep: char)
    requires sep !in s
    ensures Split(s, sep) == [s]
  {
    if |s| > 0 {
      assert sep !in s[1..] by {
        forall c | c in s[1..] ensures c in s { }
      }
      SplitWithoutSeparator(s[1..], sep);
      assert s == [s[0]] + s[1..];
    }
  }

  /** The first separator of `a + [sep] + b` ends the first piece. */
  lemma {:induction false} SplitAtFirstSeparator(a: string, b: string, sep: char)
    requires sep !in a
    ensures Split(a + [sep] + b, sep) == [a] + Split(b, sep)
  {
    var s := a + [sep] + b;
    if |a| == 0 {
      assert s[1..] == b;
    } else {
      assert s[1..] == a[1..] + [sep] + b;
      assert sep !in a[1..] by {
        forall c | c in a[1..] ensures c in a { }
      }
      SplitAtFirstSeparator(a[1..], b, sep);
      assert a == [a[0]] + a[1..];
    }
  }

  /** Splitting the join of separator-free pieces gives back the pieces. */
  lemma {:induction false} SplitJoin(parts: seq<string>, sep: char)
    requires |parts| >= 1
    requires forall i | 0 <= i < |parts| :: sep !in parts[i]
    ensures Split(Join(parts, sep), sep) == parts
  {
    if |parts| == 1 {
      SplitWithoutSeparator(parts[0], sep);
    } else {
      SplitJoin(parts[1..], sep);
      SplitAtFirstSeparator(parts[0], Join(parts[1..], sep), sep);
      assert parts == [parts[0]] + parts[1..];
    }
  }

  /** Every piece of a split avoids whatever the split string avoids. */
  lemma {:induction false} SplitAvoids(s: string, sep: char, bad: set<char>)
    requires Avoids(s, bad)
    ensures forall i | 0 <= i < |Split(s, sep)| :: Avoids(Split(s, sep)[i], bad)
  {
    if |s| > 0 {
      assert Avoids(s[1..], bad) by {
        forall i | 0 <= i < |s[1..]| ensures s[1..][i] !in bad {
          assert s[1..][i] == s[i + 1];
        }
      }
      SplitAvoids(s[1..], sep, bad);
    }
  }

  /** A join avoids a set when its pieces and its separator do. */
  lemma {:induction false} JoinAvoids(parts: seq<string>, sep: char, bad: set<char>)
    requires sep !in bad
    requires forall i | 0 <= i < |parts| :: Avoids(parts[i], bad)
    ensures Avoids(Join(parts, sep), bad)
  {
    if |parts| > 1 {
      JoinAvoids(parts[1..], sep, bad);
      var s := Join(parts, sep);
      assert s == parts[0] + [sep] + Join(parts[1..], sep);
      forall i | 0 <= i < |s| ensures s[i] !in bad {
        if i < |parts[0]| {
          assert s[i] == parts[0][i];
        } else if i > |parts[0]| {
          assert s[i] == Join(parts[1..], sep)[i - |parts[0]| - 1];
        }
      }
    }
  }

  /** Deleting characters from a string that has none of them changes nothing. */
  lemma {:induction false} RemoveNothing(s: string, bad: set<char>)
    requires Avoids(s, bad)
    ensures Remove(s, bad) == s
  {
    if |s| > 0 {
      assert Avoids(s[1..], bad) by {
        forall i | 0 <= i < |s[1..]| ensures s[1..][i] !in bad {
          assert s[1..][i] == s[i + 1];
        }
      }
      RemoveNothing(s[1..], bad);
      assert s == [s[0]] + s[1..];
    }
  }

  /** Deleting characters distributes over concatenation. */
  lemma {:induction false} RemoveAppend(s: string, t: string, bad: set<char>)
    ensures Remove(s + t, bad) == Remove(s, bad) + Remove(t, bad)
  {
    if |s| > 0 {
      assert (s + t)[1..] == s[1..] + t;
      RemoveAppend(s[1..], t, bad);
    } else {
      assert s + t == t;
    }
  }

  /**
   * Deletion counts: every deleted character is gone, and every other
   * character occurs as often as before.
   */
  lemma {:induction false} RemoveCounts(s: string, bad: set<char>, c: char)
    ensures multiset(Remove(s, bad))[c] == if c in bad then 0 else multiset(s)[c]
  {
    if |s| > 0 {
      RemoveCounts(s[1..], bad, c);
      assert s == [s[0]] + s[1..];
      assert multiset(s) == multiset([s[0]]) + multiset(s[1..]);
      var head := if s[0] in bad then "" else [s[0]];
      assert Remove(s, bad) == head + Remove(s[1..], bad);
      assert multiset(Remove(s, bad)) == multiset(head) + multiset(Remove(s[1..], bad));
    }
  }

  /** Deleting characters never introduces a character that was absent. */
  lemma {:induction false} RemoveKeepsAbsent(s: string, bad: set<char>, c: char)
    requires c !in s
    ensures c !in Remove(s, bad)
  {
    if |s| > 0 {
      assert c !in s[1..] by {
        forall d | d in s[1..] ensures d in s { }
      }
      RemoveKeepsAbsent(s[1..], bad, c);
    }
  }

  /** A string that avoids a set holds none of its characters. */
  lemma AvoidsNotIn(s: string, bad: set<char>, c: char)
    requires Avoids(s, bad)
    requires c in bad
    ensures c !in s
  {
  }
}

=== FILE: url.dfy ===
/**
 * The provider URL of `requestFromServer`: `"http://" + host + template` with
 * the first `"$$"` of the template replaced by the line identifier, as
 * JavaScript's `String.prototype.replace` does with a string pattern.
 */
module Url {
  import opened Wrappers

  /** The placeholder the path template holds for the line identifier. */
  const Placeholder: string := "$$"

  /** `pat` occurs in `s` starting at index `k`. */
  predicate OccursAt(s: string, pat: string, k: nat) {
    k + |pat| <= |s| && s[k..k + |pat|] == pat
  }

  /** `k` is where `pat` first occurs in `s`. */
  predicate FirstAt(s: string, pat: string, k: nat) {
    OccursAt(s, pat, k) && forall j | 0 <= j < k :: !OccursAt(s, pat, j)
  }

  /** The first index at or after `from` where `pat` occurs in `s`, if any. */
  function IndexOfFrom(s: string, pat: string, from: nat): (r: Option<nat>)
    ensures r.Some? ==> from <= r.value && OccursAt(s, pat, r.value)
    ensures r.Some? ==> forall j | from <= j < r.value :: !OccursAt(s, pat, j)
    ensures r.None? ==> forall j | from <= j :: !OccursAt(s, pat, j)
    decreases |s| - from
  {
    if from + |pat| > |s| then None
    else if OccursAt(s, pat, from) then Some(from)
    else IndexOfFrom(s, pat, from + 1)
  }

  /**
   * The replacement text JavaScript inserts for the replacement string `rep`
   * when the match `matched` sits between `before` and `after`: `$$` stands
   * for one `$`, `$&` for the match, `` $` `` for the text before it, `$'` for
   * the text after it; any other `$` is literal (a string pattern has no
   * capture groups).
   */
  function Expand(rep: string, matched: string, before: string, after: string): string
    decreases |rep|
  {
    if |rep| == 0 then ""
    else if rep[0] == '$' && |rep| >= 2 && rep[1] == '$' then "$" + Expand(rep[2..], matched, before, after)
    else if rep[0] == '$' && |rep| >= 2 && rep[1] == '&' then matched + Expand(rep[2..], matched, before, after)
    else if rep[0] == '$' && |rep| >= 2 && rep[1] == '`' then before + Expand(rep[2..], matched, before, after)
    else if rep[0] == '$' && |rep| >= 2 && rep[1] == '\'' then after + Expand(rep[2..], matched, before, after)
    else [rep[0]] + Expand(rep[1..], matched, before, after)
  }

  /** Text without `$` at the front of a replacement string is copied as it is. */
  lemma {:induction false} ExpandLiteralPrefix(x: string, rest: string, matched: string, before: string, after: string)
    requires '$' !in x
    ensures Expand(x + rest, matched, before, after) == x + Expand(rest, matched, before, after)
  {
    if |x| > 0 {
      var s := x + rest;
      assert s[0] == x[0] && s[1..] == x[1..] + rest;
      assert s[0] != '$';
      assert Expand(s, matched, before, after) == [x[0]] + Expand(s[1..], matched, before, after);
      assert '$' !in x[1..] by {
        forall c | c in x[1..] ensures c in x { }
      }
      ExpandLiteralPrefix(x[1..], rest, matched, before, after);
      assert x == [x[0]] + x[1..];
    } else {
      assert x + rest == rest;
    }
  }

  /** A replacement string without `$` is inserted as it is. */
  lemma {:induction false} ExpandWithoutDollar(rep: string, matched: string, before: string, after: string)
    requires '$' !in rep
    ensures Expand(rep, matched, before, after) == rep
  {
    ExpandLiteralPrefix(rep, "", matched, before, after);
    assert rep + "" == rep;
  }

  /**
   * `s.replace(pat, rep)` with a string pattern: only the first occurrence is
   * replaced; without an occurrence `s` is returned unchanged.
   */
  function ReplaceFirst(s: string, pat: string, rep: string): (r: string)
    ensures (forall j: nat :: !OccursAt(s, pat, j)) ==> r == s
    ensures forall k: nat | FirstAt(s, pat, k) ::
      r == s[..k] + Expand(rep, pat, s[..k], s[k + |pat|..]) + s[k + |pat|..]
  {
    match IndexOfFrom(s, pat, 0)
    case None => s
    case Some(k) =>
      s[..k] + Expand(rep, pat, s[..k], s[k + |pat|..]) + s[k + |pat|..]
  }

  /** The request URL for `line`: `http://`, the host, then the template with its first placeholder replaced. */
  function RequestUrl(host: string, template: string, line: string): string {
    "http://" + host + ReplaceFirst(template, Placeholder, line)
  }

  /** Without a placeholder the template is used as it is. */
  lemma WithoutPlaceholder(host: string, template: string, line: string)
    requires forall j: nat :: !OccursAt(template, Placeholder, j)
    ensures RequestUrl(host, template, line) == "http://" + host + template
  {
  }

  /**
   * The URL once the first placeholder has been located at `k`: the template
   * before it, the expanded line, and the template after it.
   */
  lemma PlaceholderReplaced(host: string, template: string, line: string, k: nat)
    requires FirstAt(template, Placeholder, k)
    ensures RequestUrl(host, template, line)
         == "http://" + host + template[..k] + Expand(line, Placeholder, template[..k], template[k + 2..]) + template[k + 2..]
  {
  }

  /** The placeholder cannot start at a character other than `$`. */
  lemma NotAt(s: string, k: nat)
    requires k < |s| && s[k] != '$'
    ensures !OccursAt(s, Placeholder, k)
  {
  }

  /** In `a + "$$" + b` with no `$` in `a`, the first placeholder sits right after `a`. */
  lemma FirstAfterPrefix(a: string, b: string)
    requires '$' !in a
    ensures FirstAt(a + Placeholder + b, Placeholder, |a|)
  {
    var t := a + Placeholder + b;
    forall j: nat | j < |a| ensures !OccursAt(t, Placeholder, j) {
      assert t[j] == a[j];
      NotAt(t, j);
    }
    assert t[|a|..|a| + 2] == Placeholder;
  }

  /** With no `$` before the first placeholder, the URL holds the expanded line in its place. */
  lemma ExpandedAtFirst(host: string, a: string, b: string, line: string)
    requires '$' !in a
    ensures RequestUrl(host, a + Placeholder + b, line)
         == "http://" + host + a + Expand(line, Placeholder, a, b) + b
  {
    var t := a + Placeholder + b;
    FirstAfterPrefix(a, b);
    PlaceholderReplaced(host, t, line, |a|);
    assert t[..|a|] == a && t[|a| + 2..] == b;
  }

  /**
   * Only the first placeholder is filled in: whatever follows it, later
   * placeholders included, is kept as it is.
   */
  lemma FirstPlaceholderOnly(host: string, a: string, b: string, line: string)
    requires '$' !in a && '$' !in line
    ensures RequestUrl(host, a + Placeholder + b, line) == "http://" + host + a + line + b
  {
    ExpandedAtFirst(host, a, b, line);
    ExpandWithoutDollar(line, Placeholder, a, b);
  }

  /**
   * In a replacement string, `$$` stands for a single `$`; whatever follows it
   * is expanded on its own.
   */
  lemma ExpandDollarDollar(x: string, y: string, matched: string, before: string, after: string)
    requires '$' !in x
    ensures Expand(x + "$$" + y, matched, before, after) == x + "$" + Expand(y, matched, before, after)
  {
    var r := "$$" + y;
    assert x + "$$" + y == x + r;
    ExpandLiteralPrefix(x, r, matched, before, after);
    assert r[0] == '$' && r[1] == '$' && r[2..] == y;
  }

  /** A `$$` inside the line identifier lands in the URL as a single `$`, as in JavaScript. */
  lemma DollarInLine(host: string, a: string, b: string, x: string, y: string)
    requires '$' !in a && '$' !in x && '$' !in y
    ensures RequestUrl(host, a + Placeholder + b, x + "$$" + y) == "http://" + host + a + x + "$" + y + b
  {
    ExpandedAtFirst(host, a, b, x + "$$" + y);
    ExpandDollarDollar(x, y, Placeholder, a, b);
    ExpandWithoutDollar(y, Placeholder, a, b);
  }
}

=== FILE: wrappers.dfy ===
/** The one optional-value type the model needs. */
module Wrappers {

  /** A value that may be absent. */
  datatype Option<+T> = None | Some(value: T)
}
